=== FILE: README.md ===
# Watch-face layout model

A Dafny model of the discrete logic inside the scene-building code of the
AppleWatchFaces app: how a watch face is assembled from its settings, how each
decorative ring of numbers, indicators or digital time is laid out, how the
hour, minute and second hands are positioned for a time of day, and the
catalogue and geometry of the face backgrounds.

The model is functional. Settings are immutable datatypes; the scene is an
abstract record of what is added (background shapes, hand presence, ring nodes
with their items); a Swift runtime trap (an out-of-range array subscript, a
closed range `a...b` with `b < a`) is a `Trapped` result rather than a
precondition.

Modules:

- `Outcomes` — `Option`, the traps and the `Rendered` result.
- `Geometry` — points, sizes, scaling, the bounds rectangle.
- `FaceBackground` — the six background types, their two orderings, display
  names, settings keys, random choice, the split polygons, the centred filled
  rectangle and the child each background type adds.
- `RingLayout` — a ring's fill and outline materials, the numbers on text
  rings, the slot loop with its wrapping pattern counter, the digital-time
  position and the rendering of one ring.
- `HandPositions` — hand angles in degrees, the second-hand effects for each
  movement mode (direct set or animated keyframes, with the pre-rotation at
  second 0), the angle each hand settles at, and the screenshot pose.
- `WatchFace` — the ring loop (clamped material, running distance) and the
  assembly of a whole face.

Angles are exact reals in degrees. The +0.05 and -0.03 keyframe offsets of the
oscillating and step-over second hand are radians in the Swift code, so a
`Rotation` carries its degrees and a separate radian nudge; no value of pi is
needed. The fraction-of-path sampling of the ring shape is the opaque
parameter `pointAt`, which may yield no point (`generateRingNode` then stops the slot
loop). Whether a material is a plain colour, the image area and the scene's
size multiplier are parameters too.

Behaviour kept exactly as the code has it:

- The text-outline material is read by an unclamped subscript before the
  spacer check, so an out-of-range outline index traps even on a spacer ring,
  while the fill material index is clamped to the last material.
- A pattern ring with a non-empty pattern and `patternTotal < 1` traps on the
  closed range `0...(patternTotal-1)`.
- A text-ring total below 12 that does not divide 12 is scaled by the integer
  quotient, so 5 slots read 10, 2, 4, 6, 8.
- The horizontal-split display name is spelled "Horizonatal Split".
- Setting the second hand directly (forced, or in step movement) does not
  cancel a rotation animation started by an earlier call, so such an
  animation still ends at its own target; this includes switching to the
  screenshot time.
- The diagonal split is always painted with its material, whereas the
  vertical and horizontal splits and the circle are cropped out of the
  filled image when the material is not a plain colour.

## Model

| member | source | states |
|---|---|---|
| `FaceBackground.ValueListsAreEnumerations` | source/Shared/Nodes/FaceBackgroundNode.swift:13-19 | the randomizable and the user-selectable lists each hold all six background types, each exactly once |
| `FaceBackground.RandomType` | source/Shared/Nodes/FaceBackgroundNode.swift:21-24 | for any draw below the list length, `random()` returns a randomizable type, and no other draw returns the same type |
| `FaceBackground.RandomReachesEveryType` | source/Shared/Nodes/FaceBackgroundNode.swift:16-24 | every type is returned for some draw, and different draws give different types |
| `FaceBackground.Description` | source/Shared/Nodes/FaceBackgroundNode.swift:29-40 | every one of the six types has a non-empty display name |
| `FaceBackground.DescriptionInjective` | source/Shared/Nodes/FaceBackgroundNode.swift:29-40 | two types share a display name only when they are the same type |
| `FaceBackground.RawValue` | source/Shared/Nodes/FaceBackgroundNode.swift:13-14 | every raw value is a case name with the `FaceBackgroundType` prefix |
| `FaceBackground.RawValueRoundTrip` | source/Shared/Nodes/FaceBackgroundNode.swift:13-14 | a key decodes to a type exactly when it is that type's raw value |
| `FaceBackground.TypeDescriptions` | source/Shared/Nodes/FaceBackgroundNode.swift:42-49 | the list has one entry per user-selectable type, entry i is the display name of type i, and no name repeats |
| `FaceBackground.TypeKeys` | source/Shared/Nodes/FaceBackgroundNode.swift:51-58 | the list has one entry per user-selectable type, entry i is the raw value of type i and decodes back to it, and the keys are pairwise distinct |
| `FaceBackground.DiagonalSplitVertices` | source/Shared/Nodes/FaceBackgroundNode.swift:104-109 | the triangle's three vertices lie in the bounds rectangle and none lies above the bottom-left to top-right diagonal |
| `FaceBackground.VerticalSplitVertices` | source/Shared/Nodes/FaceBackgroundNode.swift:119-125 | the four vertices lie in the bounds rectangle and in the right half (x at least 0) |
| `FaceBackground.HorizontalSplitVertices` | source/Shared/Nodes/FaceBackgroundNode.swift:146-152 | the four vertices lie in the bounds rectangle and in the bottom half (y at most 0) |
| `FaceBackground.SplitsCoverHalfTheFace` | source/Shared/Nodes/FaceBackgroundNode.swift:104-152 | each split polygon's shoelace area is exactly half of the filled rectangle's area |
| `FaceBackground.FilledShapeNode` | source/Shared/Nodes/FaceBackgroundNode.swift:77-84 | the rectangle built at the origin and moved back by half its size spans exactly the bounds rectangle, so it is centred on the face |
| `FaceBackground.BuildBackground` | source/Shared/Nodes/FaceBackgroundNode.swift:90-198 | each type adds at most one child and only the none type adds nothing; filled adds the centred rectangle; diagonal draws the diagonal triangle painted with its material; vertical and horizontal draw (or crop with) their split polygons and circle a circle of radius 1.1 times the size multiplier; circle and the two splits are plain shapes exactly when the material is a colour, filled with that colour, and otherwise crop the filled image of the material with a white mask; every plain shape other than the rectangle is centred and carries the given stroke colour and line width |
| `FaceBackground.SplitBackgroundCoversHalf` | source/Shared/Nodes/FaceBackgroundNode.swift:104-172 | the polygon a split background draws or crops with covers exactly half of the image area, on the right for the vertical split and at the bottom for the horizontal one |
| `FaceBackground.BackgroundPolygonsInsideScreen` | source/Shared/Nodes/FaceBackgroundNode.swift:96-152 | every polygon any background draws or masks with lies inside the bounds rectangle |
| `RingLayout.RingMaterial` | Shared/Nodes/WatchFaceNode.swift:106-112 | the fill is the material at the index when the index is in range and the last material when it is past the end, so it is always a theme material; it traps exactly when the theme is empty or the index negative |
| `RingLayout.OutlineMaterial` | Shared/Nodes/WatchFaceNode.swift:139-144 | an outline is present exactly when the ring asks for one and is then a theme material; it traps exactly when asked for with an out-of-range index |
| `RingLayout.SlotNumber` | Shared/Nodes/WatchFaceNode.swift:210-216 | a slot's number lies in 1..12 for totals below 12 and in 1..total otherwise; for totals of 12 or more it is the dial position (total at slot 0); below 12 it is a multiple of the dial position |
| `RingLayout.SlotNumbersDistinct` | Shared/Nodes/WatchFaceNode.swift:210-216 | different slots of one ring never show the same number |
| `RingLayout.TwelveSlotDial` | Shared/Nodes/WatchFaceNode.swift:210-216 | a twelve-slot ring reads 12, 1, ..., 11 |
| `RingLayout.DivisorDialShowsHours` | Shared/Nodes/WatchFaceNode.swift:213-216 | when the total divides 12, slot i shows the hour it points at, i times 12/total, and slot 0 shows 12 |
| `RingLayout.SmallDialScale` | Shared/Nodes/WatchFaceNode.swift:210-216 | for a total below 12, a slot shows its dial position times the largest factor q with total times q at most 12 |
| `RingLayout.FiveSlotDial` | Shared/Nodes/WatchFaceNode.swift:210-216 | a five-slot ring reads 10, 2, 4, 6, 8 |
| `RingLayout.SlotItem` | Shared/Nodes/WatchFaceNode.swift:206-248 | a drawn slot gets a number item exactly on a text ring with numbers on, an indicator exactly on a shape ring otherwise, and a plain node else; the item keeps the slot and the scaled position, and a number lies in 1..12 (1..total for totals of 12 or more) |
| `RingLayout.CounterWraps` | Shared/Nodes/WatchFaceNode.swift:193-194 | incrementing the pattern counter and resetting it at the pattern length keeps it equal to the slot index modulo the pattern length |
| `RingLayout.PatternLoop` | Shared/Nodes/WatchFaceNode.swift:187-250 | the loop with the wrapping counter (kept in 0..n-1 by its invariant) places exactly the items of the slot-by-slot definition, including the early stop when the path has no point |
| `RingLayout.PatternItemsBound` | Shared/Nodes/WatchFaceNode.swift:189-196 | the loop places at most one item per slot, so at most `patternTotal` items |
| `RingLayout.PatternItemsInRange` | Shared/Nodes/WatchFaceNode.swift:189-196 | every placed item fills a slot in range whose cycled pattern entry is not 0, and none is a digital-time item |
| `RingLayout.PatternItemsIncreasing` | Shared/Nodes/WatchFaceNode.swift:189-249 | items are placed in strictly increasing slot order |
| `RingLayout.PatternItemsComplete` | Shared/Nodes/WatchFaceNode.swift:189-203 | when the path yields a point at every sampled fraction `slot / total` (all of them in [0, 1)), slot i gets an item if and only if `pattern[i mod n]` is not 0 |
| `RingLayout.PatternItemsCompleteAll` | Shared/Nodes/WatchFaceNode.swift:189-203 | when the path yields a point at every sampled fraction `slot / total`, the filled slots are exactly the slots below the total whose cycled pattern entry is not 0 |
| `RingLayout.PatternItemsKinds` | Shared/Nodes/WatchFaceNode.swift:206-244 | on a text ring with numbers on every item is a number item showing its slot's number; on a shape ring every item is an indicator; on any other ring every item is a plain node |
| `RingLayout.DigitalTimePosition` | Shared/Nodes/WatchFaceNode.swift:157-175 | x is -xDist on the left, +xDist on the right and 0 otherwise; y is +yDist at the top, -yDist at the bottom and 0 otherwise; xDist = 105 d - 15 textSize, yDist = 130 d - 10 textSize |
| `RingLayout.DigitalTimeMirror` | Shared/Nodes/WatchFaceNode.swift:162-173 | left and right placements mirror each other across the vertical axis and share their height; top and bottom mirror across the horizontal axis |
| `RingLayout.GenerateRing` | Shared/Nodes/WatchFaceNode.swift:133-250 | a ring traps exactly on a bad outline index or a pattern ring with a non-empty pattern and a total below 1; fill and distance are the ones given and the outline is the looked-up outline material; a spacer adds no item; a digital-time ring adds exactly one digital-time item at the placement its alignment gives; a pattern ring adds at most `patternTotal` items (none for an empty pattern), each in a drawn slot in range, numbered with its slot's number on a text ring with numbers on and an indicator on a shape ring; with a path that yields a point at every sampled fraction `slot / total` the filled slots are exactly the drawn ones |
| `WatchFace.RenderRings` | Shared/Nodes/WatchFaceNode.swift:102-129 | one ring node per ring setting, each filled with a theme material; the rings render without trapping exactly when, for every ring, the theme is non-empty, the material index is not negative, a shown outline has an index inside the theme, and a pattern ring with a non-empty pattern has a total of at least 1 |
| `WatchFace.RingDistances` | Shared/Nodes/WatchFaceNode.swift:102-128 | ring k is exactly the ring the ring generator builds for ring setting k, filled with its clamped material, at 1.0 minus the widths of rings 0..k-1, with numbers rendered |
| `WatchFace.RingDistancesNonIncreasing` | Shared/Nodes/WatchFaceNode.swift:102-128 | with non-negative widths no ring sits further out than an earlier one |
| `WatchFace.FaceRingLayout` | Shared/Nodes/WatchFaceNode.swift:102-128 | on an assembled face, ring k is the ring generated for its own setting with numbers rendered, sits at 1.0 minus the widths of the rings before it, is painted with the theme material at its index or the last one when the index is past the end, and with non-negative widths sits no further out than any earlier ring |
| `WatchFace.Backgrounds` | Shared/Nodes/WatchFaceNode.swift:36-46 | the casing background is one centred filled rectangle of the casing material, colour or not; the face background draws the configured type with the face material: the filled rectangle, the diagonal triangle painted with the material, or the split polygon or circle, drawn plain in that colour exactly when the material is a colour and otherwise cropping the filled image of the face material; plain shapes are stroked clear with width 1; the none type adds nothing |
| `WatchFace.BuildFace` | Shared/Nodes/WatchFaceNode.swift:17-131 | without face settings nothing is added and both movements stay step; with them the face takes the configured movements and present hands, the casing and face backgrounds built from the setting's casing material, face material and background type, and exactly the rings rendered from distance 1, one per ring setting; it traps exactly when the ring loop does |
| `HandPositions.SecondAngle` | Shared/Nodes/WatchFaceNode.swift:271 | within a minute the second hand lies in (-360, 0] degrees, reaching -360 at 60 seconds |
| `HandPositions.SecondRate` | Shared/Nodes/WatchFaceNode.swift:271 | the second hand is at 0 at second 0 and turns back 6 degrees per second |
| `HandPositions.MinuteAngle` | Shared/Nodes/WatchFaceNode.swift:318-325 | for seconds in [0, 60) the minute hand lies within the current minute's 6-degree sector, and on the whole minute in step mode or at second 0 |
| `HandPositions.HourAngle` | Shared/Nodes/WatchFaceNode.swift:326-328 | for minutes in [0, 60) the hour hand lies within the current hour's 30-degree sector |
| `HandPositions.HourPerMinute` | Shared/Nodes/WatchFaceNode.swift:327 | the hour hand turns back half a degree per minute |
| `HandPositions.HourPerHour` | Shared/Nodes/WatchFaceNode.swift:327 | the hour hand is at 0 at 0:00 and turns back 30 degrees per hour |
| `HandPositions.HandsContinuous` | Shared/Nodes/WatchFaceNode.swift:319-327 | the smooth minute hand and the hour hand carry over continuously at the end of a minute and an hour; the smooth minute hand leads the step one by a sixtieth of the second hand's angle |
| `HandPositions.SecondHandSetDirectly` | Shared/Nodes/WatchFaceNode.swift:274-276 | when forced or in step mode the second hand is only set to its angle, with no animation |
| `HandPositions.SecondHandAnimated` | Shared/Nodes/WatchFaceNode.swift:278-316 | otherwise exactly one animation runs after cancelling running actions, the 6-degree pre-rotation happens exactly at second 0, the last keyframe is the step angle, oscillation first overshoots by 0.05 rad and step-over first pulls back by 0.03 rad |
| `HandPositions.SecondHandSettles` | Shared/Nodes/WatchFaceNode.swift:270-316 | an animated movement cancels whatever was running and comes to rest at the step angle from any hand state; a direct set (forced or step) only sets the rotation and leaves an earlier animation running, so the hand comes to rest at the step angle exactly when nothing was running or the running animation was headed there |
| `HandPositions.PositionHands` | Shared/Nodes/WatchFaceNode.swift:265-329 | a face without hands is untouched; otherwise the minute and hour hands are set to their angles, and the second hand comes to rest at its angle from any state when it animates and from any state with no animation running when it is set directly |
| `HandPositions.ScreenShotTime` | Shared/Nodes/WatchFaceNode.swift:347-350 | the second hand is switched to step movement and every hand is set directly, with no animation; an animation still running on the second hand is not cancelled and keeps its target |

## Left out

- Scene-graph plumbing (node names, z positions, `addChild`, `childNode(withName:)`, hiding the hands in `hideHands`): the model records what is added, not the node tree.
- The hand nodes themselves (`SecondHandNode`, `MinuteHandNode`, `HourHandNode`), their shadows and outline stroke colours: their source is not part of this model, so a face only records that its hands are present.
- The ring path (`getShapePath`, the Bezier curves and arcs, `point(at:)`) and the path scaling transform: the sampled point is the opaque `pointAt` parameter, and the rotation of text and indicator items by `atan2` is not modelled.
- The progress of a running animation: a hand state records only the final target of an animation still running, not how far it has got, so a hand's resting place is modelled but not its pose mid-animation.
- Radians, pi, `deg2rad`, animation durations and easing curves: floating-point trigonometry and framework timing.
- `setToTime`: it only reads the clock and calendar and passes the components to `positionHands`, which `PositionHands` models.
- `arc4random_uniform` in `random()`: the draw is the parameter of `RandomType`.
- `getScreenBoundsForImages`: device screen bounds and the 1.17 / 1.42 scale constants; the image area is the `screen` parameter.
- Colour parsing, `setMaterial`, `AppUISettings.materialIsColor` and the crop-node rendering: external helpers; the colour verdict is a parameter and materials are kept as names.
- The arguments passed through to `DigitalTimeNode`, `NumberTextNode` and `FaceIndicatorNode` (text type, time format, Roman numerals, indicator type and size): their constructors are not part of this model.
- `renderShapes` is accepted by the ring generator but never read, so it is not a parameter.
- Enumerations declared outside WatchFaceNode.swift and FaceBackgroundNode.swift: only the ring types, movement modes and positions the code names are modelled, plus one centred horizontal and one centred vertical position standing for any other case (position 0).
- `Float` and `CGFloat` rounding: distances, angles and coordinates are exact reals.
- Swift `Int` overflow: integers are unbounded; the counts involved are small.
- `init?(coder:)`: a `fatalError` stub.

=== FILE: face_background.dfy ===
/**
 * The background of a watch face: the catalogue of background types (their
 * display names, settings keys and the two orderings the app offers) and
 * the shape a background of each type adds to the scene.
 */
module FaceBackground {
  import opened Outcomes
  import opened Geometry

  /** The six background types; each case's raw value is its own name. */
  datatype BackgroundType =
    | FaceBackgroundTypeFilled
    | FaceBackgroundTypeDiagonalSplit
    | FaceBackgroundTypeCircle
    | FaceBackgroundTypeVerticalSplit
    | FaceBackgroundTypeHorizontalSplit
    | FaceBackgroundTypeNone

  /** The order used when a background is picked at random. */
  const RandomizableValues: seq<BackgroundType> :=
    [FaceBackgroundTypeCircle, FaceBackgroundTypeFilled, FaceBackgroundTypeDiagonalSplit,
     FaceBackgroundTypeVerticalSplit, FaceBackgroundTypeHorizontalSplit, FaceBackgroundTypeNone]

  /** The order in which the settings screen lists the backgrounds. */
  const UserSelectableValues: seq<BackgroundType> :=
    [FaceBackgroundTypeFilled, FaceBackgroundTypeDiagonalSplit, FaceBackgroundTypeCircle,
     FaceBackgroundTypeVerticalSplit, FaceBackgroundTypeHorizontalSplit, FaceBackgroundTypeNone]

  /** Every element of `s` occurs in it exactly once. */
  predicate Distinct<T(==)>(s: seq<T>) {
    forall i, j :: 0 <= i < j < |s| ==> s[i] != s[j]
  }

  /** `s` lists every background type exactly once. */
  predicate ListsEveryTypeOnce(s: seq<BackgroundType>) {
    && Distinct(s)
    && (forall t: BackgroundType :: t in s)
  }

  lemma ValueListsAreEnumerations()
    ensures ListsEveryTypeOnce(RandomizableValues) && |RandomizableValues| == 6
    ensures ListsEveryTypeOnce(UserSelectableValues) && |UserSelectableValues| == 6
  {
    forall t: BackgroundType
      ensures t in RandomizableValues && t in UserSelectableValues
    {
      match t
      case FaceBackgroundTypeFilled =>
        assert RandomizableValues[1] == t && UserSelectableValues[0] == t;
      case FaceBackgroundTypeDiagonalSplit =>
        assert RandomizableValues[2] == t && UserSelectableValues[1] == t;
      case FaceBackgroundTypeCircle =>
        assert RandomizableValues[0] == t && UserSelectableValues[2] == t;
      case FaceBackgroundTypeVerticalSplit =>
        assert RandomizableValues[3] == t && UserSelectableValues[3] == t;
      case FaceBackgroundTypeHorizontalSplit =>
        assert RandomizableValues[4] == t && UserSelectableValues[4] == t;
      case FaceBackgroundTypeNone =>
        assert RandomizableValues[5] == t && UserSelectableValues[5] == t;
    }
  }

  /**
   * The type `random()` returns when the random-number generator draws `draw`;
   * `arc4random_uniform(count)` only ever draws a number below `count`.
   */
  function RandomType(draw: nat): (t: BackgroundType)
    requires draw < |RandomizableValues|
    ensures t in RandomizableValues
    ensures forall d :: 0 <= d < |RandomizableValues| && d != draw ==> RandomizableValues[d] != t
  {
    ValueListsAreEnumerations();
    RandomizableValues[draw]
  }

  /** Every background type is returned by `random()` for exactly one draw. */
  lemma RandomReachesEveryType(t: BackgroundType)
    ensures exists draw: nat :: draw < |RandomizableValues| && RandomType(draw) == t
    ensures forall d1: nat, d2: nat :: d1 < d2 < |RandomizableValues| ==> RandomType(d1) != RandomType(d2)
  {
    ValueListsAreEnumerations();
    assert t in RandomizableValues;
    var draw :| 0 <= draw < |RandomizableValues| && RandomizableValues[draw] == t;
    assert RandomType(draw) == t;
  }

  /** The name the settings screen shows for a background type. */
  function Description(t: BackgroundType): (d: string)
    ensures |d| > 0
  {
    match t
    case FaceBackgroundTypeCircle => "Circle"
    case FaceBackgroundTypeFilled => "Filled"
    case FaceBackgroundTypeDiagonalSplit => "Split Diagonal"
    case FaceBackgroundTypeVerticalSplit => "Vertical Split"
    case FaceBackgroundTypeHorizontalSplit => "Horizonatal Split"
    case FaceBackgroundTypeNone => "None"
  }

  /** No two background types share a display name. */
  lemma DescriptionInjective(t1: BackgroundType, t2: BackgroundType)
    ensures Description(t1) == Description(t2) <==> t1 == t2
  {
  }

  /** The string raw value of a type, used as its key in saved settings. */
  function RawValue(t: BackgroundType): (key: string)
    ensures |key| > |"FaceBackgroundType"|
    ensures key[..|"FaceBackgroundType"|] == "FaceBackgroundType"
  {
    match t
    case FaceBackgroundTypeFilled => "FaceBackgroundTypeFilled"
    case FaceBackgroundTypeDiagonalSplit => "FaceBackgroundTypeDiagonalSplit"
    case FaceBackgroundTypeCircle => "FaceBackgroundTypeCircle"
    case FaceBackgroundTypeVerticalSplit => "FaceBackgroundTypeVerticalSplit"
    case FaceBackgroundTypeHorizontalSplit => "FaceBackgroundTypeHorizontalSplit"
    case FaceBackgroundTypeNone => "FaceBackgroundTypeNone"
  }

  /** The failable initialiser from a raw value: the type whose raw value is `key`, if any. */
  function FromRawValue(key: string): (t: Option<BackgroundType>)
  {
    if key == "FaceBackgroundTypeFilled" then Some(FaceBackgroundTypeFilled)
    else if key == "FaceBackgroundTypeDiagonalSplit" then Some(FaceBackgroundTypeDiagonalSplit)
    else if key == "FaceBackgroundTypeCircle" then Some(FaceBackgroundTypeCircle)
    else if key == "FaceBackgroundTypeVerticalSplit" then Some(FaceBackgroundTypeVerticalSplit)
    else if key == "FaceBackgroundTypeHorizontalSplit" then Some(FaceBackgroundTypeHorizontalSplit)
    else if key == "FaceBackgroundTypeNone" then Some(FaceBackgroundTypeNone)
    else None
  }

  /** Raw values round-trip: a key decodes to `t` exactly when it is `t`'s raw value. */
  lemma RawValueRoundTrip(t: BackgroundType, key: string)
    ensures FromRawValue(key) == Some(t) <==> key == RawValue(t)
  {
  }

  /** The display names in settings-screen order, built the way the loop in `typeDescriptions` appends them. */
  method TypeDescriptions() returns (r: seq<string>)
    ensures |r| == |UserSelectableValues|
    ensures forall i :: 0 <= i < |r| ==> r[i] == Description(UserSelectableValues[i])
    ensures Distinct(r)
  {
    r := [];
    for k := 0 to |UserSelectableValues|
      invariant |r| == k
      invariant forall i :: 0 <= i < k ==> r[i] == Description(UserSelectableValues[i])
    {
      r := r + [Description(UserSelectableValues[k])];
    }
    forall i, j | 0 <= i < j < |r|
      ensures r[i] != r[j]
    {
      DescriptionInjective(UserSelectableValues[i], UserSelectableValues[j]);
    }
  }

  /** The settings keys in settings-screen order: each key decodes back to the type listed at its index. */
  method TypeKeys() returns (r: seq<string>)
    ensures |r| == |UserSelectableValues|
    ensures forall i :: 0 <= i < |r| ==> r[i] == RawValue(UserSelectableValues[i])
    ensures forall i :: 0 <= i < |r| ==> FromRawValue(r[i]) == Some(UserSelectableValues[i])
    ensures Distinct(r)
  {
    r := [];
    for k := 0 to |UserSelectableValues|
      invariant |r| == k
      invariant forall i :: 0 <= i < k ==> r[i] == RawValue(UserSelectableValues[i])
    {
      r := r + [RawValue(UserSelectableValues[k])];
    }
    forall i | 0 <= i < |r|
      ensures FromRawValue(r[i]) == Some(UserSelectableValues[i])
    {
      RawValueRoundTrip(UserSelectableValues[i], r[i]);
    }
    forall i, j | 0 <= i < j < |r|
      ensures r[i] != r[j]
    {
      RawValueRoundTrip(UserSelectableValues[i], r[j]);
    }
  }

  // ---------------------------------------------------------------------------
  // Geometry of the backgrounds

  /** Half the width of the image area: the x extent of the split shapes. */
  function XBounds(screen: Size): real { screen.width / 2.0 }

  /** Half the height of the image area: the y extent of the split shapes. */
  function YBounds(screen: Size): real { screen.height / 2.0 }

  /** The lower-right triangle below the diagonal from the bottom-left to the top-right corner. */
  function DiagonalSplitVertices(xBounds: real, yBounds: real): (vs: seq<Point>)
    ensures |vs| == 3
    ensures xBounds >= 0.0 && yBounds >= 0.0 ==>
      forall i :: 0 <= i < |vs| ==> InBounds(vs[i], xBounds, yBounds)
    // no vertex lies above the diagonal through (-xBounds, -yBounds) and (xBounds, yBounds)
    ensures xBounds >= 0.0 && yBounds >= 0.0 ==>
      forall i :: 0 <= i < |vs| ==> vs[i].y * xBounds <= vs[i].x * yBounds
  {
    [Point(xBounds, yBounds), Point(-xBounds, -yBounds), Point(xBounds, -yBounds)]
  }

  /** The right half of the face. */
  function VerticalSplitVertices(xBounds: real, yBounds: real): (vs: seq<Point>)
    ensures |vs| == 4
    ensures xBounds >= 0.0 && yBounds >= 0.0 ==>
      forall i :: 0 <= i < |vs| ==> InBounds(vs[i], xBounds, yBounds) && vs[i].x >= 0.0
  {
    [Point(0.0, yBounds), Point(xBounds, yBounds), Point(xBounds, -yBounds), Point(0.0, -yBounds)]
  }

  /** The bottom half of the face. */
  function HorizontalSplitVertices(xBounds: real, yBounds: real): (vs: seq<Point>)
    ensures |vs| == 4
    ensures xBounds >= 0.0 && yBounds >= 0.0 ==>
      forall i :: 0 <= i < |vs| ==> InBounds(vs[i], xBounds, yBounds) && vs[i].y <= 0.0
  {
    [Point(xBounds, 0.0), Point(xBounds, -yBounds), Point(-xBounds, -yBounds), Point(-xBounds, 0.0)]
  }

  /** Twice the signed area swept from the origin along the open chain `vs`. */
  function ChainCross(vs: seq<Point>): real {
    if |vs| < 2 then 0.0
    else vs[0].x * vs[1].y - vs[1].x * vs[0].y + ChainCross(vs[1..])
  }

  /** The area of the closed polygon `vs` (shoelace formula). */
  function PolygonArea(vs: seq<Point>): real {
    var twice := if |vs| < 3 then 0.0
                 else ChainCross(vs) + (vs[|vs| - 1].x * vs[0].y - vs[0].x * vs[|vs| - 1].y);
    if twice < 0.0 then -twice / 2.0 else twice / 2.0
  }

  /** Each split polygon covers exactly half of the filled rectangle `2 xBounds x 2 yBounds`. */
  lemma SplitsCoverHalfTheFace(xBounds: real, yBounds: real)
    requires xBounds >= 0.0 && yBounds >= 0.0
    ensures PolygonArea(DiagonalSplitVertices(xBounds, yBounds)) == 2.0 * xBounds * yBounds
    ensures PolygonArea(VerticalSplitVertices(xBounds, yBounds)) == 2.0 * xBounds * yBounds
    ensures PolygonArea(HorizontalSplitVertices(xBounds, yBounds)) == 2.0 * xBounds * yBounds
  {
    var d := DiagonalSplitVertices(xBounds, yBounds);
    assert ChainCross(d[2..]) == 0.0;
    assert ChainCross(d[1..]) == 2.0 * xBounds * yBounds;
    assert ChainCross(d) == 2.0 * xBounds * yBounds;
    var v := VerticalSplitVertices(xBounds, yBounds);
    assert ChainCross(v[3..]) == 0.0;
    assert ChainCross(v[2..]) == -xBounds * yBounds;
    assert ChainCross(v[1..]) == -3.0 * xBounds * yBounds;
    assert ChainCross(v) == -4.0 * xBounds * yBounds;
    var h := HorizontalSplitVertices(xBounds, yBounds);
    assert ChainCross(h[3..]) == 0.0;
    assert ChainCross(h[2..]) == -xBounds * yBounds;
    assert ChainCross(h[1..]) == -3.0 * xBounds * yBounds;
    assert ChainCross(h) == -4.0 * xBounds * yBounds;
  }

  // ---------------------------------------------------------------------------
  // Background nodes

  /** A colour, named by its hex string or by a system colour name such as "clear". */
  type Color = string

  const Clear: Color := "clear"

  /** How a shape is filled. */
  datatype Paint =
    | MaterialPaint(material: string) // an image or colour applied by material name
    | ColorFill(hex: Color)           // a plain fill colour
    | WhiteFill                       // the opaque fill of a crop mask

  datatype Shape =
    | Rect(origin: Point, width: real, height: real)
    | Polygon(vertices: seq<Point>)
    | CircleShape(radius: real)

  /** A shape node; `None` in an optional attribute means the framework default is left in place. */
  datatype ShapeNode = ShapeNode(
    shape: Shape,
    position: Point,
    paint: Paint,
    strokeColor: Option<Color>,
    lineWidth: Option<real>)

  /** A child of the background: a shape, or a filled image cropped to a mask shape. */
  datatype BackgroundChild =
    | Plain(node: ShapeNode)
    | Cropped(content: ShapeNode, mask: ShapeNode)

  datatype BackgroundNode = BackgroundNode(children: seq<BackgroundChild>)

  /** The least corner of a rectangle node once it has been positioned in the scene. */
  function PlacedMin(n: ShapeNode): Point
    requires n.shape.Rect?
  {
    Point(n.position.x + n.shape.origin.x, n.position.y + n.shape.origin.y)
  }

  /** The greatest corner of a rectangle node once it has been positioned in the scene. */
  function PlacedMax(n: ShapeNode): Point
    requires n.shape.Rect?
  {
    Point(n.position.x + n.shape.origin.x + n.shape.width,
          n.position.y + n.shape.origin.y + n.shape.height)
  }

  /**
   * The full-screen rectangle filled with `material`: built at the origin and moved
   * back by half its size, so that it is centred on the face and spans exactly the
   * rectangle the split shapes are bounded by.
   */
  function FilledShapeNode(material: string, screen: Size): (n: ShapeNode)
    ensures n.shape.Rect? && n.paint == MaterialPaint(material)
    ensures PlacedMin(n) == Point(-XBounds(screen), -YBounds(screen))
    ensures PlacedMax(n) == Point(XBounds(screen), YBounds(screen))
  {
    ShapeNode(Rect(Point(0.0, 0.0), screen.width, screen.height),
              Point(-screen.width / 2.0, -screen.height / 2.0),
              MaterialPaint(material), None, Some(0.0))
  }

  /** A split shape: painted directly when the material is a colour, otherwise an image cropped to it. */
  function SplitChild(vs: seq<Point>, material: string, strokeColor: Color, lineWidth: real,
                      screen: Size, materialIsColor: bool): BackgroundChild
  {
    if materialIsColor then
      Plain(ShapeNode(Polygon(vs), Point(0.0, 0.0), ColorFill(material), Some(strokeColor), Some(lineWidth)))
    else
      Cropped(FilledShapeNode(material, screen), ShapeNode(Polygon(vs), Point(0.0, 0.0), WhiteFill, None, None))
  }

  /** Radius of the circle background, in units of the scene's size multiplier. */
  const CircleRadius: real := 1.1

  /**
   * The children a background node of type `t` gets. The Swift initializer tests the type in six
   * independent `if` statements, so the children are the concatenation of what each adds.
   * `materialIsColor` is the app's verdict on `material`; `screen` is the image area.
   */
  function BuildBackground(t: BackgroundType, material: string, strokeColor: Color, lineWidth: real,
                           screen: Size, materialIsColor: bool, sizeMultiplier: real): (n: BackgroundNode)
    ensures |n.children| <= 1
    ensures |n.children| == 0 <==> t == FaceBackgroundTypeNone
    ensures t == FaceBackgroundTypeFilled ==> n.children == [Plain(FilledShapeNode(material, screen))]
    ensures t == FaceBackgroundTypeDiagonalSplit ==>
      n.children[0].Plain? && n.children[0].node.paint == MaterialPaint(material)
    ensures t in {FaceBackgroundTypeVerticalSplit, FaceBackgroundTypeHorizontalSplit, FaceBackgroundTypeCircle} ==>
      (n.children[0].Plain? <==> materialIsColor)
    ensures forall c :: c in n.children && c.Cropped? ==>
      c.content == FilledShapeNode(material, screen) && c.mask.paint == WhiteFill
    // the shape each type draws (or crops the image with)
    ensures t == FaceBackgroundTypeDiagonalSplit ==>
      ChildShape(n.children[0]) == Polygon(DiagonalSplitVertices(XBounds(screen), YBounds(screen)))
    ensures t == FaceBackgroundTypeVerticalSplit ==>
      ChildShape(n.children[0]) == Polygon(VerticalSplitVertices(XBounds(screen), YBounds(screen)))
    ensures t == FaceBackgroundTypeHorizontalSplit ==>
      ChildShape(n.children[0]) == Polygon(HorizontalSplitVertices(XBounds(screen), YBounds(screen)))
    ensures t == FaceBackgroundTypeCircle ==>
      ChildShape(n.children[0]) == CircleShape(CircleRadius * sizeMultiplier)
    // a shape drawn directly, other than the filled rectangle, carries the given stroke and a centred position
    ensures t != FaceBackgroundTypeFilled && t != FaceBackgroundTypeNone && n.children[0].Plain? ==>
      && n.children[0].node.strokeColor == Some(strokeColor)
      && n.children[0].node.lineWidth == Some(lineWidth)
      && n.children[0].node.position == Point(0.0, 0.0)
      && (t != FaceBackgroundTypeDiagonalSplit ==> n.children[0].node.paint == ColorFill(material))
  {
    var xBounds := XBounds(screen);
    var yBounds := YBounds(screen);
    var filled :=
      if t == FaceBackgroundTypeFilled then [Plain(FilledShapeNode(material, screen))] else [];
    var diagonal :=
      if t == FaceBackgroundTypeDiagonalSplit then
        [Plain(ShapeNode(Polygon(DiagonalSplitVertices(xBounds, yBounds)), Point(0.0, 0.0),
                         MaterialPaint(material), Some(strokeColor), Some(lineWidth)))]
      else [];
    var vertical :=
      if t == FaceBackgroundTypeVerticalSplit then
        [SplitChild(VerticalSplitVertices(xBounds, yBounds), material, strokeColor, lineWidth, screen, materialIsColor)]
      else [];
    var horizontal :=
      if t == FaceBackgroundTypeHorizontalSplit then
        [SplitChild(HorizontalSplitVertices(xBounds, yBounds), material, strokeColor, lineWidth, screen, materialIsColor)]
      else [];
    var circleNode := CircleShape(CircleRadius * sizeMultiplier);
    var circleChild :=
      if materialIsColor then
        Plain(ShapeNode(circleNode, Point(0.0, 0.0), ColorFill(material), Some(strokeColor), Some(lineWidth)))
      else
        Cropped(FilledShapeNode(material, screen), ShapeNode(circleNode, Point(0.0, 0.0), WhiteFill, None, None));
    var circle := if t == FaceBackgroundTypeCircle then [circleChild] else [];
    assert t != FaceBackgroundTypeNone ==> |filled| + |diagonal| + |vertical| + |horizontal| + |circle| == 1;
    BackgroundNode(filled + diagonal + vertical + horizontal + circle)
  }

  /** The shape a background child draws, or masks the image with. */
  function ChildShape(c: BackgroundChild): Shape {
    match c
    case Plain(n) => n.shape
    case Cropped(_, m) => m.shape
  }

  /** The polygon a background child draws or masks with, if it has one. */
  function ChildPolygon(c: BackgroundChild): Option<seq<Point>> {
    if ChildShape(c).Polygon? then Some(ChildShape(c).vertices) else None
  }

  /**
   * Whatever the type and material, every polygon a background draws or crops with
   * stays inside the filled full-screen rectangle.
   */
  lemma BackgroundPolygonsInsideScreen(t: BackgroundType, material: string, strokeColor: Color,
                                       lineWidth: real, screen: Size, materialIsColor: bool,
                                       sizeMultiplier: real)
    requires screen.width >= 0.0 && screen.height >= 0.0
    ensures forall c | c in BuildBackground(t, material, strokeColor, lineWidth, screen, materialIsColor, sizeMultiplier).children
      :: ChildPolygon(c).Some? ==>
         forall i :: 0 <= i < |ChildPolygon(c).value| ==>
           InBounds(ChildPolygon(c).value[i], XBounds(screen), YBounds(screen))
  {
  }

  /**
   * A split background draws (or crops with) a polygon covering exactly half of the
   * filled rectangle: the right half for the vertical split, the bottom half for the
   * horizontal one and the triangle below the diagonal for the diagonal one.
   */
  lemma SplitBackgroundCoversHalf(t: BackgroundType, material: string, strokeColor: Color,
                                  lineWidth: real, screen: Size, materialIsColor: bool,
                                  sizeMultiplier: real)
    requires t in {FaceBackgroundTypeDiagonalSplit, FaceBackgroundTypeVerticalSplit, FaceBackgroundTypeHorizontalSplit}
    requires screen.width >= 0.0 && screen.height >= 0.0
    ensures var n := BuildBackground(t, material, strokeColor, lineWidth, screen, materialIsColor, sizeMultiplier);
      && ChildPolygon(n.children[0]).Some?
      && var vs := ChildPolygon(n.children[0]).value;
         && PolygonArea(vs) == screen.width * screen.height / 2.0
         && (t == FaceBackgroundTypeVerticalSplit ==> forall i :: 0 <= i < |vs| ==> vs[i].x >= 0.0)
         && (t == FaceBackgroundTypeHorizontalSplit ==> forall i :: 0 <= i < |vs| ==> vs[i].y <= 0.0)
  {
    SplitsCoverHalfTheFace(XBounds(screen), YBounds(screen));
    assert 2.0 * XBounds(screen) * YBounds(screen) == screen.width * screen.height / 2.0;
  }
}

=== FILE: geometry.dfy ===
/** Plane geometry of the face, in scene points with the origin at the centre of the face. */
module Geometry {

  datatype Point = Point(x: real, y: real)

  /** A screen or image size. */
  datatype Size = Size(width: real, height: real)

  /** `p` scaled about the origin by `k` (an affine scale transform with equal factors). */
  function Scale(p: Point, k: real): Point {
    Point(k * p.x, k * p.y)
  }

  /** `p` lies in the rectangle `[-xBounds, xBounds] x [-yBounds, yBounds]`. */
  predicate InBounds(p: Point, xBounds: real, yBounds: real) {
    -xBounds <= p.x <= xBounds && -yBounds <= p.y <= yBounds
  }
}

=== FILE: hand_positions.dfy ===
/**
 * Positioning the three hands of a watch face for a time of day. Angles are in
 * degrees, counter-clockwise positive as in the scene, so clockwise hand motion
 * makes them more negative.
 */
module HandPositions {
  import opened Outcomes

  datatype SecondHandMovement =
    | SecondHandMovementStep      // jump once per second
    | SecondHandMovementSmooth    // sweep to the next second
    | SecondHandMovementOscillate // sweep past the next second and swing back
    | SecondHandMovementStepOver  // pull back slightly, then jump to the next second

  datatype MinuteHandMovement = MinuteHandMovementStep | MinuteHandMovementSmooth

  /**
   * A hand rotation: `degrees` (converted to radians when applied) plus a `nudge`
   * that `positionHands` already gives in radians.
   */
  datatype Rotation = Rotation(degrees: real, nudge: real)

  function Degrees(d: real): Rotation {
    Rotation(d, 0.0)
  }

  /** The second hand turns a full circle every 60 seconds. */
  function SecondAngle(sec: real): (a: real)
    ensures 0.0 <= sec < 60.0 ==> -360.0 < a <= 0.0
    ensures sec == 60.0 ==> a == -360.0
  {
    -(sec * 6.0)
  }

  /**
   * The minute hand: on whole minutes when stepping, or advanced by the fraction of
   * the current minute when smooth. Either way it points within the current minute.
   */
  function MinuteAngle(mode: MinuteHandMovement, min: real, sec: real): (a: real)
    ensures 0.0 <= sec < 60.0 ==> -(min + 1.0) * 6.0 < a <= -(min * 6.0)
    ensures mode == MinuteHandMovementStep || sec == 0.0 ==> a == -(min * 6.0)
  {
    match mode
    case MinuteHandMovementStep => -(min * 6.0)
    case MinuteHandMovementSmooth => -((min + sec / 60.0) * 6.0)
  }

  /** The hour hand: 30 degrees per hour, advanced by half a degree per minute. */
  function HourAngle(hour: real, min: real): (a: real)
    ensures 0.0 <= min < 60.0 ==> -(hour + 1.0) * 30.0 < a <= -(hour * 30.0)
  {
    -(hour * 30.0 + min / 2.0)
  }

  /** The second hand starts at 0 and turns back 6 degrees for every second. */
  lemma SecondRate(sec: real, d: real)
    ensures SecondAngle(0.0) == 0.0
    ensures SecondAngle(sec + d) == SecondAngle(sec) - 6.0 * d
  {
    assert (sec + d) * 6.0 == sec * 6.0 + d * 6.0;
  }

  /** The hour hand turns back half a degree for every minute. */
  lemma HourPerMinute(hour: real, min: real, d: real)
    ensures HourAngle(hour, min + d) == HourAngle(hour, min) - d / 2.0
  {
  }

  /** The hour hand turns back 30 degrees for every hour, and starts at 0. */
  lemma HourPerHour(hour: real, min: real, d: real)
    ensures HourAngle(0.0, 0.0) == 0.0
    ensures HourAngle(hour + d, min) == HourAngle(hour, min) - 30.0 * d
  {
    var m := min / 2.0;
    assert (hour + d) * 30.0 == hour * 30.0 + d * 30.0;
    assert HourAngle(hour + d, min) == -((hour + d) * 30.0 + m);
    assert HourAngle(hour, min) == -(hour * 30.0 + m);
  }

  /** The smooth minute hand and the hour hand carry over continuously at the end of a minute and of an hour. */
  lemma HandsContinuous(hour: real, min: real, sec: real)
    ensures MinuteAngle(MinuteHandMovementSmooth, min, 60.0) == MinuteAngle(MinuteHandMovementSmooth, min + 1.0, 0.0)
    ensures HourAngle(hour, 60.0) == HourAngle(hour + 1.0, 0.0)
    ensures MinuteAngle(MinuteHandMovementSmooth, min, sec) - MinuteAngle(MinuteHandMovementStep, min, sec)
         == SecondAngle(sec) / 60.0
  {
  }

  /** One thing done to a hand node. */
  datatype HandEffect =
    | SetRotation(angle: Rotation)    // set the rotation at once
    | RemoveAllActions                // cancel running animations
    | RunRotations(targets: seq<Rotation>) // animate through these rotations in turn

  /** The pre-rotation the animated movements apply at second 0, so the hand does not spin back round. */
  const ZeroSecondFix: Rotation := Degrees(6.0)

  /** Nudge, in radians, past the target that the oscillating hand swings to first. */
  const OscillateOvershoot: real := 0.05

  /** Nudge, in radians, that the step-over hand pulls back by first. */
  const StepOverPullBack: real := 0.03

  /**
   * What positioning does to the second hand. `positionHands` tests the movement in four
   * independent `if` statements, so the effects are the concatenation of what each adds.
   */
  function SecondHandEffects(mode: SecondHandMovement, sec: real, force: bool): seq<HandEffect> {
    var target := Degrees(SecondAngle(sec));
    var fix := if sec == 0.0 then [SetRotation(ZeroSecondFix)] else [];
    (if mode == SecondHandMovementStep || force then [SetRotation(target)] else [])
    + (if mode == SecondHandMovementSmooth && !force then
         [RemoveAllActions] + fix + [RunRotations([target])]
       else [])
    + (if mode == SecondHandMovementOscillate && !force then
         [RemoveAllActions] + fix + [RunRotations([Rotation(target.degrees, OscillateOvershoot), target])]
       else [])
    + (if mode == SecondHandMovementStepOver && !force then
         [RemoveAllActions] + fix + [RunRotations([Rotation(target.degrees, -StepOverPullBack), target])]
       else [])
  }

  /**
   * A hand node's state: its rotation, and the final target of a rotation
   * animation still running on it (one started by an earlier positioning and not
   * cancelled since).
   */
  datatype HandState = HandState(rotation: Rotation, running: Option<Rotation>)

  /** Where a hand comes to rest: a running animation finishes by rotating it to its target. */
  function Rest(s: HandState): Rotation {
    if s.running.Some? then s.running.value else s.rotation
  }

  /**
   * The state after the effects are applied in order: a set changes the rotation
   * but leaves a running animation alone, cancelling clears it, and a new
   * animation runs to its last keyframe.
   */
  function Apply(s: HandState, effects: seq<HandEffect>): HandState
    decreases |effects|
  {
    if effects == [] then s
    else
      var next := match effects[0]
        case SetRotation(a) => s.(rotation := a)
        case RemoveAllActions => s.(running := None)
        case RunRotations(ts) => if ts == [] then s else s.(running := Some(ts[|ts| - 1]));
      Apply(next, effects[1..])
  }

  /** The number of animations among `effects`. */
  function Animations(effects: seq<HandEffect>): nat
    decreases |effects|
  {
    if effects == [] then 0
    else (if effects[0].RunRotations? then 1 else 0) + Animations(effects[1..])
  }

  lemma {:induction false} AnimationsAppend(a: seq<HandEffect>, b: seq<HandEffect>)
    ensures Animations(a + b) == Animations(a) + Animations(b)
    decreases |a|
  {
    if a != [] {
      assert (a + b)[1..] == a[1..] + b;
      assert (a + b)[0] == a[0];
      AnimationsAppend(a[1..], b);
    } else {
      assert a + b == b;
    }
  }

  lemma {:induction false} ApplyAppend(s: HandState, a: seq<HandEffect>, b: seq<HandEffect>)
    ensures Apply(s, a + b) == Apply(Apply(s, a), b)
    decreases |a|
  {
    if a != [] {
      assert (a + b)[1..] == a[1..] + b;
      assert (a + b)[0] == a[0];
      var next := match a[0]
        case SetRotation(r) => s.(rotation := r)
        case RemoveAllActions => s.(running := None)
        case RunRotations(ts) => if ts == [] then s else s.(running := Some(ts[|ts| - 1]));
      ApplyAppend(next, a[1..], b);
    } else {
      assert a + b == b;
    }
  }

  /** When forced, or in step mode, the second hand is set straight to its angle and nothing animates. */
  lemma SecondHandSetDirectly(mode: SecondHandMovement, sec: real, force: bool)
    requires force || mode == SecondHandMovementStep
    ensures SecondHandEffects(mode, sec, force) == [SetRotation(Degrees(SecondAngle(sec)))]
  {
  }

  /**
   * Otherwise exactly one animation runs: all running actions are cancelled first,
   * the hand is pre-rotated to 6 degrees exactly at second 0, and the animation's
   * last target is the step angle. The first keyframe overshoots by the oscillation
   * nudge or pulls back by the step-over nudge.
   */
  lemma SecondHandAnimated(mode: SecondHandMovement, sec: real, force: bool)
    requires !force && mode != SecondHandMovementStep
    ensures var effects := SecondHandEffects(mode, sec, force);
      && Animations(effects) == 1
      && effects[0] == RemoveAllActions
      && (SetRotation(ZeroSecondFix) in effects <==> sec == 0.0)
      && effects[|effects| - 1].RunRotations?
      && var targets := effects[|effects| - 1].targets;
         && targets[|targets| - 1] == Degrees(SecondAngle(sec))
         && (mode == SecondHandMovementOscillate ==>
               targets == [Rotation(SecondAngle(sec), OscillateOvershoot), Degrees(SecondAngle(sec))])
         && (mode == SecondHandMovementStepOver ==>
               targets == [Rotation(SecondAngle(sec), -StepOverPullBack), Degrees(SecondAngle(sec))])
  {
    var target := Degrees(SecondAngle(sec));
    var fix := if sec == 0.0 then [SetRotation(ZeroSecondFix)] else [];
    var run := match mode
      case SecondHandMovementOscillate => RunRotations([Rotation(target.degrees, OscillateOvershoot), target])
      case SecondHandMovementStepOver => RunRotations([Rotation(target.degrees, -StepOverPullBack), target])
      case _ => RunRotations([target]);
    var effects := SecondHandEffects(mode, sec, force);
    assert effects == [RemoveAllActions] + fix + [run];
    AnimationsAppend([RemoveAllActions] + fix, [run]);
    AnimationsAppend([RemoveAllActions], fix);
    if sec == 0.0 {
      assert effects[1] == SetRotation(ZeroSecondFix);
    } else {
      assert effects == [RemoveAllActions, run];
    }
  }

  /**
   * An animated movement cancels whatever was running and comes to rest at the
   * step angle from any state. A direct set does not cancel a running animation:
   * the hand comes to rest at the step angle exactly when nothing was running or
   * the running animation was headed there anyway.
   */
  lemma SecondHandSettles(mode: SecondHandMovement, sec: real, force: bool, start: HandState)
    ensures var end := Apply(start, SecondHandEffects(mode, sec, force));
      && (!force && mode != SecondHandMovementStep ==>
            end.running == Some(Degrees(SecondAngle(sec))) && Rest(end) == Degrees(SecondAngle(sec)))
      && (force || mode == SecondHandMovementStep ==>
            && end == HandState(Degrees(SecondAngle(sec)), start.running)
            && (Rest(end) == Degrees(SecondAngle(sec)) <==>
                  start.running.None? || start.running.value == Degrees(SecondAngle(sec))))
  {
    var effects := SecondHandEffects(mode, sec, force);
    if force || mode == SecondHandMovementStep {
      SecondHandSetDirectly(mode, sec, force);
    } else {
      SecondHandAnimated(mode, sec, force);
      var n := |effects|;
      assert effects == effects[..n - 1] + [effects[n - 1]];
      ApplyAppend(start, effects[..n - 1], [effects[n - 1]]);
    }
  }

  /** The movement modes of a face and whether its hand nodes are present. */
  datatype HandSet = HandSet(
    secondHandMovement: SecondHandMovement,
    minuteHandMovement: MinuteHandMovement,
    present: bool)

  /** What positioning does to each hand; a missing hand is left alone. */
  datatype HandUpdates = HandUpdates(
    second: seq<HandEffect>,
    minute: Option<Rotation>,
    hour: Option<Rotation>)

  /**
   * Positions the hands for `hour:min:sec`. Hands missing from the face are untouched.
   * The minute and hour hands are set to their angles; the second hand comes to rest at
   * its angle whenever it animates, and on a direct set only if no earlier animation
   * is still running on it.
   */
  function PositionHands(hands: HandSet, sec: real, min: real, hour: real, force: bool): (u: HandUpdates)
    ensures !hands.present ==> u == HandUpdates([], None, None)
    ensures hands.present ==>
      && (forall start: HandState ::
            (start.running.None? || (!force && hands.secondHandMovement != SecondHandMovementStep)) ==>
              Rest(Apply(start, u.second)) == Degrees(SecondAngle(sec)))
      && u.minute == Some(Degrees(MinuteAngle(hands.minuteHandMovement, min, sec)))
      && u.hour == Some(Degrees(HourAngle(hour, min)))
  {
    if !hands.present then HandUpdates([], None, None)
    else
      var effects := SecondHandEffects(hands.secondHandMovement, sec, force);
      assert forall start: HandState ::
          (start.running.None? || (!force && hands.secondHandMovement != SecondHandMovementStep)) ==>
            Rest(Apply(start, effects)) == Degrees(SecondAngle(sec)) by {
        forall start: HandState {
          SecondHandSettles(hands.secondHandMovement, sec, force, start);
        }
      }
      HandUpdates(
        effects,
        Some(Degrees(MinuteAngle(hands.minuteHandMovement, min, sec))),
        Some(Degrees(HourAngle(hour, min))))
  }

  /**
   * The screenshot pose: the second hand is switched to step movement for good and
   * all hands are set directly, with no animation.
   */
  function ScreenShotTime(hands: HandSet, sec: real, min: real, hour: real): (r: (HandSet, HandUpdates))
    ensures r.0.secondHandMovement == SecondHandMovementStep
    ensures r.0.minuteHandMovement == hands.minuteHandMovement && r.0.present == hands.present
    ensures hands.present ==> r.1.second == [SetRotation(Degrees(SecondAngle(sec)))]
    ensures Animations(r.1.second) == 0
    // the direct set cancels nothing: an animation still running keeps running to its own target
    ensures forall start: HandState ::
      Apply(start, r.1.second).running == start.running
      && (hands.present ==> Apply(start, r.1.second).rotation == Degrees(SecondAngle(sec)))
  {
    var stepped := hands.(secondHandMovement := SecondHandMovementStep);
    SecondHandSetDirectly(SecondHandMovementStep, sec, false);
    (stepped, PositionHands(stepped, sec, min, hour, false))
  }
}

=== FILE: outcomes.dfy ===
/** Failure-carrying values shared by the watch-face model. */
module Outcomes {

  /** An optional value: a node that may be missing, a path sample that may fail. */
  datatype Option<+T> = None | Some(value: T)

  /** The Swift runtime traps the rendering code can run into. */
  datatype Trap =
    | IndexOutOfRange    // an array subscript outside `0..<count`
    | InvalidClosedRange // `a...b` with `b < a`

  /** The result of building part of the scene: either the built value or the trap that aborted it. */
  datatype Rendered<+T> = Done(value: T) | Trapped(trap: Trap)
}

=== FILE: ring_layout.dfy ===
/**
 * One ring of a watch face: which theme material it is painted with, which of
 * its slots are drawn, what number a text slot shows and where a digital-time
 * item sits.
 */
module RingLayout {
  import opened Outcomes
  import opened Geometry

  datatype RingType =
    | RingTypeSpacer
    | RingTypeDigitalTime
    | RingTypeTextNode
    | RingTypeTextRotatingNode
    | RingTypeShapeNode

  /** Rings that place items around the pattern (everything but spacers and digital time). */
  predicate IsPatternRing(t: RingType) {
    t != RingTypeSpacer && t != RingTypeDigitalTime
  }

  datatype HorizontalPosition = Left | HorizontalCentered | Right

  datatype VerticalPosition = Top | VerticalCentered | Bottom

  /** The settings of one ring that its layout depends on. */
  datatype RingSetting = RingSetting(
    ringType: RingType,
    patternTotal: int,        // number of slots around the ring
    pattern: seq<int>,        // cycled over the slots; a 0 entry leaves the slot empty
    ringWidth: real,          // how far the next ring moves towards the centre
    materialIndex: int,       // desired theme material of the ring
    textSize: real,
    showTextOutline: bool,
    textOutlineIndex: int,    // theme material of the text outline
    horizontal: HorizontalPosition,
    vertical: VerticalPosition)

  /** An item placed on a ring. `slot` is the index of the pattern slot the item fills. */
  datatype RingItem =
    | DigitalTimeItem(position: Point)
    | NumberItem(slot: int, number: int, position: Point)
    | IndicatorItem(slot: int, position: Point)
    | BlankItem(slot: int, position: Point)

  /** A rendered ring: its fill and outline materials, its distance from the centre and its items. */
  datatype RingNode = RingNode(
    fill: string,
    outline: Option<string>,
    distance: real,
    items: seq<RingItem>)

  // ---------------------------------------------------------------------------
  // Materials

  /**
   * The ring's fill: the theme material at `index`, or the last theme material when
   * `index` is past the end. A negative index or an empty theme traps.
   */
  function RingMaterial(materials: seq<string>, index: int): (r: Rendered<string>)
    ensures r.Done? <==> |materials| > 0 && index >= 0
    ensures r.Done? ==> r.value in materials
    ensures r.Done? && index < |materials| ==> r.value == materials[index]
    ensures r.Done? && index >= |materials| ==> r.value == materials[|materials| - 1]
  {
    if index <= |materials| - 1 then
      if 0 <= index then Done(materials[index]) else Trapped(IndexOutOfRange)
    else if |materials| > 0 then Done(materials[|materials| - 1])
    else Trapped(IndexOutOfRange)
  }

  /** The text outline material, looked up without clamping (so an index past the end traps). */
  function OutlineMaterial(setting: RingSetting, materials: seq<string>): (r: Rendered<Option<string>>)
    ensures r.Trapped? <==> setting.showTextOutline && !(0 <= setting.textOutlineIndex < |materials|)
    ensures r.Done? ==> (r.value.Some? <==> setting.showTextOutline)
    ensures r.Done? && r.value.Some? ==> r.value.value in materials
  {
    if !setting.showTextOutline then Done(None)
    else if 0 <= setting.textOutlineIndex < |materials| then Done(Some(materials[setting.textOutlineIndex]))
    else Trapped(IndexOutOfRange)
  }

  // ---------------------------------------------------------------------------
  // Numbers on text rings

  /** The dial position a slot stands for: slot 0 is the top of the dial, numbered `total`. */
  function DialPosition(slot: int, total: int): int {
    if slot == 0 then total else slot
  }

  /**
   * The number a text ring shows at `slot`. Totals below 12 are scaled onto a
   * 12-hour dial by the integer quotient `12 / total`. The slot loop only runs
   * with `total >= 1`, so the quotient is defined.
   */
  function SlotNumber(slot: int, total: int): (n: int)
    requires total >= 1 && 0 <= slot < total
    ensures 1 <= n <= (if total < 12 then 12 else total)
    ensures total >= 12 ==> n == DialPosition(slot, total)
    ensures total < 12 ==> n % DialPosition(slot, total) == 0
  {
    var n := DialPosition(slot, total);
    if total < 12 then
      var q := 12 / total;
      QuotientOfTwelve(total);
      MulMonotone(n, total, q);
      MulMultiple(n, q);
      n * q
    else n
  }

  /** For a total from 1 to 11 the scale factor `12 / total` is positive and scales the total to at most 12. */
  lemma QuotientOfTwelve(total: int)
    requires 1 <= total < 12
    ensures 1 <= 12 / total && total * (12 / total) <= 12
  {
  }

  /** A positive multiple of `n` is at least `n` and leaves no remainder. */
  lemma MulMultiple(n: int, q: int)
    requires n >= 1 && q >= 1
    ensures n * q >= 1 && (n * q) % n == 0 && (n * q) / n == q
  {
    MulMonotone(1, n, q);
    assert (n * q) / n == q;
  }

  lemma MulMonotone(a: int, b: int, k: int)
    requires 0 <= a <= b && k >= 0
    ensures a * k <= b * k
  {
  }

  /** Multiplying two different numbers by the same positive factor keeps them different. */
  lemma MulCancel(a: int, b: int, k: int)
    requires k > 0 && a != b
    ensures a * k != b * k
  {
    if a < b {
      assert (b - a) * k > 0;
    } else {
      assert (a - b) * k > 0;
    }
  }

  /** Different slots of one ring never show the same number. */
  lemma SlotNumbersDistinct(total: int, i: int, j: int)
    requires total >= 1 && 0 <= i < total && 0 <= j < total && i != j
    ensures SlotNumber(i, total) != SlotNumber(j, total)
  {
    if total < 12 {
      MulCancel(DialPosition(i, total), DialPosition(j, total), 12 / total);
    }
  }

  /**
   * A total below 12 scales every dial position by the largest factor that keeps
   * the top number, the total itself, at most 12 (the integer quotient of 12 by the
   * total, so 5 slots scale by 2 and 7 to 11 slots are left unscaled).
   */
  lemma SmallDialScale(slot: int, total: int)
    requires 1 <= total < 12 && 0 <= slot < total
    ensures SlotNumber(slot, total) % DialPosition(slot, total) == 0
    ensures var q := SlotNumber(slot, total) / DialPosition(slot, total);
      q >= 1 && total * q <= 12 < total * (q + 1)
  {
    var n, q := DialPosition(slot, total), 12 / total;
    QuotientOfTwelve(total);
    QuotientIsLargest(total);
    MulMultiple(n, q);
    var m := SlotNumber(slot, total);
    assert m == n * q;
    assert m / n == q;
  }

  lemma QuotientIsLargest(total: int)
    requires 1 <= total < 12
    ensures 12 < total * (12 / total + 1)
  {
    var q, r := 12 / total, 12 % total;
    assert 12 == total * q + r && r < total;
    assert total * (q + 1) == total * q + total;
  }

  /** A five-slot ring reads 10, 2, 4, 6, 8: each slot scaled by 2, not by 12/5. */
  lemma FiveSlotDial()
    ensures seq(5, i requires 0 <= i < 5 => SlotNumber(i, 5)) == [10, 2, 4, 6, 8]
  {
  }

  /** A twelve-slot ring reads 12, 1, 2, ..., 11: the hours of a clock, each in 1..12. */
  lemma TwelveSlotDial(slot: int)
    requires 0 <= slot < 12
    ensures SlotNumber(slot, 12) == (if slot == 0 then 12 else slot)
  {
  }

  /**
   * When the total divides 12, a slot shows the hour it points at: slot `i` of
   * `total` sits `i * (12 / total)` hours round the dial, and the top reads 12.
   */
  lemma DivisorDialShowsHours(slot: int, total: int)
    requires total in {1, 2, 3, 4, 6, 12} && 0 <= slot < total
    ensures SlotNumber(slot, total) == (if slot == 0 then 12 else slot * (12 / total))
  {
  }

  // ---------------------------------------------------------------------------
  // Pattern slots

  /** How far along the ring path slot `slot` of `total` sits. */
  function PathFraction(slot: int, total: int): (f: real)
    requires total >= 1
    ensures 0 <= slot < total ==> 0.0 <= f < 1.0
  {
    slot as real / total as real
  }

  /** The path yields a point at every fraction `slot / total` the slot loop samples. */
  predicate SamplesEverySlot(pointAt: real -> Option<Point>, total: int)
    requires total >= 1
  {
    forall slot: nat :: slot < total ==> pointAt(PathFraction(slot, total)).Some?
  }

  /** Slot `slot` of a ring with pattern `pattern` is drawn when its cycled pattern entry is not 0. */
  predicate Drawn(pattern: seq<int>, slot: nat)
    requires |pattern| > 0
  {
    pattern[slot % |pattern|] != 0
  }

  /** Whether a ring of this type shows numbers in its slots. */
  predicate ShowsNumbers(ringType: RingType, renderNumbers: bool) {
    renderNumbers && (ringType == RingTypeTextNode || ringType == RingTypeTextRotatingNode)
  }

  /** The item a drawn slot gets: numbers on text rings (when numbers are rendered), indicators on shape rings. */
  function SlotItem(ringType: RingType, renderNumbers: bool, slot: int, total: int, position: Point): (it: RingItem)
    requires total >= 1 && 0 <= slot < total
    ensures ItemSlot(it) == slot && it.position == position
    ensures it.NumberItem? <==> ShowsNumbers(ringType, renderNumbers)
    ensures it.IndicatorItem? <==> !ShowsNumbers(ringType, renderNumbers) && ringType == RingTypeShapeNode
    ensures it.NumberItem? ==> 1 <= it.number <= (if total < 12 then 12 else total)
  {
    if ShowsNumbers(ringType, renderNumbers) then
      NumberItem(slot, SlotNumber(slot, total), position)
    else if ringType == RingTypeShapeNode then IndicatorItem(slot, position)
    else BlankItem(slot, position)
  }

  /** The slot index of an item placed by the slot loop (-1 for a digital-time item, which has none). */
  function ItemSlot(item: RingItem): int {
    match item
    case DigitalTimeItem(_) => -1
    case NumberItem(slot, _, _) => slot
    case IndicatorItem(slot, _) => slot
    case BlankItem(slot, _) => slot
  }

  /**
   * What the slot loop of one ring works with. `pointAt` samples the ring's path at a
   * fraction of its length and yields `None` where the path has no point.
   */
  datatype SlotLoop = SlotLoop(
    ringType: RingType,
    renderNumbers: bool,
    total: int,
    pattern: seq<int>,
    distance: real,
    pointAt: real -> Option<Point>)
  {
    /** The loop is entered only for a non-empty pattern and a non-empty slot range. */
    predicate Runs() {
      |pattern| > 0 && total >= 1
    }
  }

  /** What the loop does at one slot. */
  datatype SlotStep = Skip | Place(item: RingItem) | Stop

  /**
   * A slot whose pattern entry is 0 is skipped; a drawn slot is placed at the path's
   * point for the fraction `slot / total`, scaled by the ring's distance; when the
   * path yields no point there, the loop stops.
   */
  function StepAt(loop: SlotLoop, slot: nat): SlotStep
    requires loop.Runs() && slot < loop.total
  {
    if !Drawn(loop.pattern, slot) then Skip
    else match loop.pointAt(PathFraction(slot, loop.total))
      case None => Stop
      case Some(p) => Place(SlotItem(loop.ringType, loop.renderNumbers, slot, loop.total, Scale(p, loop.distance)))
  }

  /** The items the slot loop places from `slot` on. */
  function PatternItems(loop: SlotLoop, slot: nat): seq<RingItem>
    requires loop.Runs() && slot <= loop.total
    decreases loop.total - slot
  {
    if slot == loop.total then []
    else match StepAt(loop, slot)
      case Skip => PatternItems(loop, slot + 1)
      case Stop => []
      case Place(item) => [item] + PatternItems(loop, slot + 1)
  }

  /** Advancing the wrapping pattern counter keeps it equal to the slot index modulo the pattern length. */
  lemma CounterWraps(counter: int, slot: nat, n: nat)
    requires n > 0 && counter == slot % n
    ensures (if counter + 1 >= n then 0 else counter + 1) == (slot + 1) % n
  {
    var q := slot / n;
    assert slot == q * n + counter;
    if counter + 1 >= n {
      assert slot + 1 == (q + 1) * n + 0;
      ModOfMultiplePlus(slot + 1, q + 1, 0, n);
    } else {
      assert slot + 1 == q * n + (counter + 1);
      ModOfMultiplePlus(slot + 1, q, counter + 1, n);
    }
  }

  lemma ModOfMultiplePlus(a: int, q: int, r: int, n: int)
    requires n > 0 && 0 <= r < n && a == q * n + r
    ensures a % n == r
  {
    var q' := a / n;
    var r' := a % n;
    assert a == q' * n + r';
    assert (q - q') * n == r' - r;
    if q > q' {
      MulAtLeast(q - q', n);
    } else if q < q' {
      MulAtLeast(q' - q, n);
    }
  }

  lemma MulAtLeast(m: int, n: int)
    requires m >= 1 && n >= 1
    ensures m * n >= n
  {
    assert m * n == (m - 1) * n + n;
    assert (m - 1) * n >= 0;
  }

  /**
   * The slot loop of `generateRingNode`, with its wrapping pattern counter: it places exactly the
   * items `PatternItems` describes, and the counter always indexes the pattern.
   */
  method PatternLoop(loop: SlotLoop) returns (items: seq<RingItem>)
    requires loop.Runs()
    ensures |items| <= loop.total
    ensures items == PatternItems(loop, 0)
  {
    var counter := 0;
    items := [];
    var slot := 0;
    var stopped := false;
    while slot < loop.total && !stopped
      invariant 0 <= slot <= loop.total
      invariant 0 <= counter < |loop.pattern|
      invariant counter == slot % |loop.pattern|
      invariant stopped ==> items == PatternItems(loop, 0)
      invariant !stopped ==> items + PatternItems(loop, slot) == PatternItems(loop, 0)
    {
      var doDraw := loop.pattern[counter] != 0;
      CounterWraps(counter, slot, |loop.pattern|);
      counter := counter + 1;
      if counter >= |loop.pattern| {
        counter := 0;
      }
      if doDraw {
        var p := loop.pointAt(PathFraction(slot, loop.total));
        if p.None? {
          // the path has no point here: `generateRingNode` returns, keeping the items placed so far
          assert StepAt(loop, slot) == Stop;
          stopped := true;
        } else {
          var item := SlotItem(loop.ringType, loop.renderNumbers, slot, loop.total, Scale(p.value, loop.distance));
          assert StepAt(loop, slot) == Place(item);
          assert PatternItems(loop, slot) == [item] + PatternItems(loop, slot + 1);
          assert items + PatternItems(loop, slot) == (items + [item]) + PatternItems(loop, slot + 1);
          items := items + [item];
        }
      } else {
        assert StepAt(loop, slot) == Skip;
      }
      slot := slot + 1;
    }
    PatternItemsBound(loop, 0);
  }

  /** The loop places at most one item per remaining slot. */
  lemma {:induction false} PatternItemsBound(loop: SlotLoop, slot: nat)
    requires loop.Runs() && slot <= loop.total
    ensures |PatternItems(loop, slot)| <= loop.total - slot
    decreases loop.total - slot
  {
    if slot < loop.total {
      PatternItemsBound(loop, slot + 1);
    }
  }

  /** Every placed item fills a drawn slot in `slot..total-1`, and none is a digital-time item. */
  lemma {:induction false} PatternItemsInRange(loop: SlotLoop, slot: nat)
    requires loop.Runs() && slot <= loop.total
    ensures forall item | item in PatternItems(loop, slot) ::
      !item.DigitalTimeItem? && slot <= ItemSlot(item) < loop.total && Drawn(loop.pattern, ItemSlot(item))
    decreases loop.total - slot
  {
    if slot < loop.total {
      PatternItemsInRange(loop, slot + 1);
      var step := StepAt(loop, slot);
      if step.Place? {
        assert PatternItems(loop, slot) == [step.item] + PatternItems(loop, slot + 1);
      }
    }
  }

  /** The items fill strictly increasing slots. */
  predicate SlotsIncreasing(items: seq<RingItem>) {
    forall k, l :: 0 <= k < l < |items| ==> ItemSlot(items[k]) < ItemSlot(items[l])
  }

  lemma ConsIncreasing(item: RingItem, rest: seq<RingItem>)
    requires SlotsIncreasing(rest)
    requires forall x | x in rest :: ItemSlot(item) < ItemSlot(x)
    ensures SlotsIncreasing([item] + rest)
  {
    var items := [item] + rest;
    forall k, l | 0 <= k < l < |items|
      ensures ItemSlot(items[k]) < ItemSlot(items[l])
    {
      assert items[l] == rest[l - 1];
      if k > 0 {
        assert items[k] == rest[k - 1];
      }
    }
  }

  /** The loop places items in increasing slot order. */
  lemma {:induction false} PatternItemsIncreasing(loop: SlotLoop, slot: nat)
    requires loop.Runs() && slot <= loop.total
    ensures SlotsIncreasing(PatternItems(loop, slot))
    decreases loop.total - slot
  {
    if slot < loop.total {
      PatternItemsIncreasing(loop, slot + 1);
      PatternItemsInRange(loop, slot + 1);
      var step := StepAt(loop, slot);
      if step.Place? {
        ConsIncreasing(step.item, PatternItems(loop, slot + 1));
      }
    }
  }

  /** The slots the items fill. */
  function ItemSlots(items: seq<RingItem>): set<int> {
    set k | 0 <= k < |items| :: ItemSlot(items[k])
  }

  lemma ItemSlotsCons(item: RingItem, rest: seq<RingItem>)
    ensures ItemSlots([item] + rest) == {ItemSlot(item)} + ItemSlots(rest)
  {
    var items := [item] + rest;
    assert ItemSlot(items[0]) == ItemSlot(item);
    forall x | x in ItemSlots(rest)
      ensures x in ItemSlots(items)
    {
      var k :| 0 <= k < |rest| && ItemSlot(rest[k]) == x;
      assert ItemSlot(items[k + 1]) == x;
    }
    forall x | x in ItemSlots(items)
      ensures x in {ItemSlot(item)} + ItemSlots(rest)
    {
      var k :| 0 <= k < |items| && ItemSlot(items[k]) == x;
      if k > 0 {
        assert ItemSlot(rest[k - 1]) == x;
      }
    }
  }

  /**
   * When the ring path yields a point at every sampled fraction, a slot in `slot..total-1`
   * gets an item exactly when its pattern entry is not 0.
   */
  lemma {:induction false} PatternItemsComplete(loop: SlotLoop, slot: nat, s: nat)
    requires loop.Runs() && slot <= loop.total
    requires SamplesEverySlot(loop.pointAt, loop.total)
    ensures s in ItemSlots(PatternItems(loop, slot)) <==> slot <= s < loop.total && Drawn(loop.pattern, s)
    decreases loop.total - slot
  {
    if slot < loop.total {
      PatternItemsComplete(loop, slot + 1, s);
      var rest := PatternItems(loop, slot + 1);
      if Drawn(loop.pattern, slot) {
        var p := loop.pointAt(PathFraction(slot, loop.total)).value;
        ItemSlotsCons(SlotItem(loop.ringType, loop.renderNumbers, slot, loop.total, Scale(p, loop.distance)), rest);
      }
    } else {
      assert PatternItems(loop, slot) == [];
    }
  }

  /**
   * The kind of every placed item follows the ring type: a text ring with numbers on
   * shows the slot's number, a shape ring places an indicator, and any other ring
   * places a plain node.
   */
  lemma {:induction false} PatternItemsKinds(loop: SlotLoop, slot: nat)
    requires loop.Runs() && slot <= loop.total
    ensures forall item | item in PatternItems(loop, slot) ::
      && (ShowsNumbers(loop.ringType, loop.renderNumbers) ==>
            item.NumberItem? && 0 <= item.slot < loop.total && item.number == SlotNumber(item.slot, loop.total))
      && (loop.ringType == RingTypeShapeNode ==> item.IndicatorItem?)
      && (!ShowsNumbers(loop.ringType, loop.renderNumbers) && loop.ringType != RingTypeShapeNode ==>
            item.BlankItem?)
    decreases loop.total - slot
  {
    if slot < loop.total {
      PatternItemsKinds(loop, slot + 1);
      PatternItemsInRange(loop, slot);
      var step := StepAt(loop, slot);
      if step.Place? {
        assert PatternItems(loop, slot) == [step.item] + PatternItems(loop, slot + 1);
      }
    }
  }

  /** `PatternItemsComplete` for every slot at once, when the path yields a point at every sampled fraction. */
  lemma PatternItemsCompleteAll(loop: SlotLoop)
    requires loop.Runs()
    ensures SamplesEverySlot(loop.pointAt, loop.total) ==>
      forall s: nat :: s in ItemSlots(PatternItems(loop, 0)) <==> s < loop.total && Drawn(loop.pattern, s)
  {
    if SamplesEverySlot(loop.pointAt, loop.total) {
      forall s: nat
        ensures s in ItemSlots(PatternItems(loop, 0)) <==> s < loop.total && Drawn(loop.pattern, s)
      {
        PatternItemsComplete(loop, 0, s);
      }
    }
  }

  // ---------------------------------------------------------------------------
  // Digital time

  /** Horizontal offset of a digital-time item from the centre line. */
  function DigitalTimeXDistance(distance: real, textSize: real): real {
    105.0 * distance - textSize * 15.0
  }

  /** Vertical offset of a digital-time item from the centre line. */
  function DigitalTimeYDistance(distance: real, textSize: real): real {
    130.0 * distance - textSize * 10.0
  }

  /** Where a digital-time item is placed: its sides follow the ring's horizontal and vertical positions. */
  function DigitalTimePosition(distance: real, textSize: real, h: HorizontalPosition, v: VerticalPosition): (p: Point)
    ensures h == Left ==> p.x == -DigitalTimeXDistance(distance, textSize)
    ensures h == Right ==> p.x == DigitalTimeXDistance(distance, textSize)
    ensures h == HorizontalCentered ==> p.x == 0.0
    ensures v == Top ==> p.y == DigitalTimeYDistance(distance, textSize)
    ensures v == Bottom ==> p.y == -DigitalTimeYDistance(distance, textSize)
    ensures v == VerticalCentered ==> p.y == 0.0
  {
    var xDist := DigitalTimeXDistance(distance, textSize);
    var yDist := DigitalTimeYDistance(distance, textSize);
    var x := if h == Left then -xDist else if h == Right then xDist else 0.0;
    var y := if v == Top then yDist else if v == Bottom then -yDist else 0.0;
    Point(x, y)
  }

  /** Left and right placements mirror each other across the vertical axis, top and bottom across the horizontal one. */
  lemma DigitalTimeMirror(distance: real, textSize: real, h: HorizontalPosition, v: VerticalPosition)
    ensures DigitalTimePosition(distance, textSize, Left, v).x == -DigitalTimePosition(distance, textSize, Right, v).x
    ensures DigitalTimePosition(distance, textSize, h, Top).y == -DigitalTimePosition(distance, textSize, h, Bottom).y
    ensures DigitalTimePosition(distance, textSize, Left, v).y == DigitalTimePosition(distance, textSize, Right, v).y
  {
  }

  // ---------------------------------------------------------------------------
  // A whole ring

  /**
   * Renders one ring at `distance` with fill `fill`. The outline material is looked up
   * first (even for a spacer); a spacer ring adds nothing, a digital-time ring adds its
   * one item, an empty pattern adds nothing, and otherwise the slot loop runs over
   * `0...(total-1)`, which traps when `total < 1`.
   */
  function GenerateRing(setting: RingSetting, fill: string, materials: seq<string>, distance: real,
                        renderNumbers: bool, pointAt: real -> Option<Point>): (r: Rendered<RingNode>)
    ensures r.Trapped? <==>
      || OutlineMaterial(setting, materials).Trapped?
      || (IsPatternRing(setting.ringType) && |setting.pattern| > 0 && setting.patternTotal < 1)
    ensures r.Done? ==> r.value.fill == fill && r.value.distance == distance
    ensures r.Done? && setting.ringType == RingTypeSpacer ==> r.value.items == []
    ensures r.Done? ==> r.value.outline == OutlineMaterial(setting, materials).value
    ensures r.Done? && setting.ringType == RingTypeDigitalTime ==>
      r.value.items == [DigitalTimeItem(DigitalTimePosition(distance, setting.textSize, setting.horizontal, setting.vertical))]
    ensures r.Done? && IsPatternRing(setting.ringType) ==>
      && |r.value.items| <= (if |setting.pattern| == 0 then 0 else setting.patternTotal)
      && forall item | item in r.value.items ::
           && !item.DigitalTimeItem? && 0 <= ItemSlot(item) < setting.patternTotal
           && Drawn(setting.pattern, ItemSlot(item))
           && (ShowsNumbers(setting.ringType, renderNumbers) ==>
                 item.NumberItem? && item.number == SlotNumber(item.slot, setting.patternTotal))
           && (setting.ringType == RingTypeShapeNode ==> item.IndicatorItem?)
    // with a path that yields a point at every sampled fraction, exactly the drawn slots get an item
    ensures r.Done? && IsPatternRing(setting.ringType) && |setting.pattern| > 0
            && SamplesEverySlot(pointAt, setting.patternTotal) ==>
      forall s: nat :: s in ItemSlots(r.value.items) <==> s < setting.patternTotal && Drawn(setting.pattern, s)
  {
    match OutlineMaterial(setting, materials)
    case Trapped(trap) => Trapped(trap)
    case Done(outline) =>
      if setting.ringType == RingTypeSpacer then Done(RingNode(fill, outline, distance, []))
      else if setting.ringType == RingTypeDigitalTime then
        var position := DigitalTimePosition(distance, setting.textSize, setting.horizontal, setting.vertical);
        Done(RingNode(fill, outline, distance, [DigitalTimeItem(position)]))
      else if |setting.pattern| == 0 then Done(RingNode(fill, outline, distance, []))
      else if setting.patternTotal < 1 then Trapped(InvalidClosedRange)
      else
        var loop := SlotLoop(setting.ringType, renderNumbers, setting.patternTotal, setting.pattern, distance, pointAt);
        PatternItemsBound(loop, 0);
        PatternItemsInRange(loop, 0);
        PatternItemsKinds(loop, 0);
        PatternItemsCompleteAll(loop);
        Done(RingNode(fill, outline, distance, PatternItems(loop, 0)))
  }
}

=== FILE: watch_face.dfy ===
/**
 * Assembling a watch face from its settings: the casing and face backgrounds,
 * the hands, and the rings laid out from the outside in.
 */
module WatchFace {
  import opened Outcomes
  import opened Geometry
  import FaceBackground
  import opened RingLayout
  import opened HandPositions

  /** The face-level settings the assembly reads. */
  datatype ClockFaceSettings = ClockFaceSettings(
    secondHandMovement: SecondHandMovement,
    minuteHandMovement: MinuteHandMovement,
    ringMaterials: seq<string>,
    ringSettings: seq<RingSetting>)

  /** A clock setting; its face settings may be missing. */
  datatype ClockSetting = ClockSetting(
    clockFaceSettings: Option<ClockFaceSettings>,
    clockCasingMaterialName: string,
    clockFaceMaterialName: string,
    faceBackgroundType: FaceBackground.BackgroundType)

  /**
   * What assembly depends on outside the face's settings: the image area, the scene's
   * size multiplier, the app's verdict on which materials are plain colours, and the
   * point of the ring path at a fraction of its length.
   */
  datatype Environment = Environment(
    screen: Size,
    sizeMultiplier: real,
    materialIsColor: string -> bool,
    pointAt: real -> Option<Point>)

  /** An assembled face: the hands' movements and presence, the two backgrounds and the rings. */
  datatype Face = Face(
    hands: HandSet,
    casing: Option<FaceBackground.BackgroundNode>,
    backgroundShape: Option<FaceBackground.BackgroundNode>,
    rings: seq<RingNode>)

  /** The sum of the widths of `rings`. */
  function WidthSum(rings: seq<RingSetting>): real
    decreases |rings|
  {
    if rings == [] then 0.0 else rings[0].ringWidth + WidthSum(rings[1..])
  }

  /**
   * A ring renders without trapping when the theme has a material and the ring's index
   * is not negative, its outline index (if an outline is shown) is inside the theme,
   * and a pattern ring with a non-empty pattern has a total of at least 1.
   */
  predicate RingRenders(materials: seq<string>, ring: RingSetting) {
    && |materials| > 0 && ring.materialIndex >= 0
    && (ring.showTextOutline ==> 0 <= ring.textOutlineIndex < |materials|)
    && !(IsPatternRing(ring.ringType) && |ring.pattern| > 0 && ring.patternTotal < 1)
  }

  /**
   * Renders the rings from `distance` inwards: each ring is painted with its clamped
   * theme material, drawn at the current distance, and moves the next ring in by its
   * width. The first trap aborts the whole assembly.
   */
  function RenderRings(materials: seq<string>, rings: seq<RingSetting>, distance: real,
                       pointAt: real -> Option<Point>): (r: Rendered<seq<RingNode>>)
    ensures r.Done? ==> |r.value| == |rings|
    ensures r.Done? ==> forall k :: 0 <= k < |rings| ==> r.value[k].fill in materials
    ensures rings != [] && materials == [] ==> r.Trapped?
    ensures r.Done? <==> forall k :: 0 <= k < |rings| ==> RingRenders(materials, rings[k])
    decreases |rings|
  {
    if rings == [] then Done([])
    else match RingMaterial(materials, rings[0].materialIndex)
      case Trapped(trap) => Trapped(trap)
      case Done(material) =>
        match GenerateRing(rings[0], material, materials, distance, true, pointAt)
        case Trapped(trap) => Trapped(trap)
        case Done(node) =>
          match RenderRings(materials, rings[1..], distance - rings[0].ringWidth, pointAt)
          case Trapped(trap) => Trapped(trap)
          case Done(rest) => Done([node] + rest)
  }

  /**
   * Ring `k` is drawn at the start distance minus the widths of the rings before it,
   * painted with its clamped theme material, and is exactly the ring `GenerateRing`
   * builds for its own setting there, with numbers rendered.
   */
  lemma {:induction false} RingDistances(materials: seq<string>, rings: seq<RingSetting>, distance: real,
                                         pointAt: real -> Option<Point>, k: nat)
    requires RenderRings(materials, rings, distance, pointAt).Done?
    requires k < |rings|
    ensures var node := RenderRings(materials, rings, distance, pointAt).value[k];
      && node.distance == distance - WidthSum(rings[..k])
      && RingMaterial(materials, rings[k].materialIndex) == Done(node.fill)
      && GenerateRing(rings[k], node.fill, materials, distance - WidthSum(rings[..k]), true, pointAt) == Done(node)
    decreases k
  {
    var rest := RenderRings(materials, rings[1..], distance - rings[0].ringWidth, pointAt);
    if k > 0 {
      RingDistances(materials, rings[1..], distance - rings[0].ringWidth, pointAt, k - 1);
      assert rings[..k][1..] == rings[1..][..k - 1];
      assert rings[..k][0] == rings[0];
      assert rings[1..][k - 1] == rings[k];
    }
  }

  /** With non-negative widths, each ring sits no further out than the one before it. */
  lemma {:induction false} RingDistancesNonIncreasing(materials: seq<string>, rings: seq<RingSetting>,
                                                      distance: real, pointAt: real -> Option<Point>,
                                                      i: nat, j: nat)
    requires RenderRings(materials, rings, distance, pointAt).Done?
    requires forall k :: 0 <= k < |rings| ==> rings[k].ringWidth >= 0.0
    requires i <= j < |rings|
    ensures RenderRings(materials, rings, distance, pointAt).value[j].distance
         <= RenderRings(materials, rings, distance, pointAt).value[i].distance
  {
    RingDistances(materials, rings, distance, pointAt, i);
    RingDistances(materials, rings, distance, pointAt, j);
    WidthSumPrefixMonotone(rings, i, j);
  }

  lemma {:induction false} WidthSumPrefixMonotone(rings: seq<RingSetting>, i: nat, j: nat)
    requires forall k :: 0 <= k < |rings| ==> rings[k].ringWidth >= 0.0
    requires i <= j <= |rings|
    ensures WidthSum(rings[..i]) <= WidthSum(rings[..j])
    decreases i
  {
    if i > 0 {
      WidthSumPrefixMonotone(rings[1..], i - 1, j - 1);
      assert rings[..i][1..] == rings[1..][..i - 1];
      assert rings[..j][1..] == rings[1..][..j - 1];
      assert rings[..i][0] == rings[0] == rings[..j][0];
    } else {
      WidthSumNonNegative(rings[..j]);
    }
  }

  lemma {:induction false} WidthSumNonNegative(rings: seq<RingSetting>)
    requires forall k :: 0 <= k < |rings| ==> rings[k].ringWidth >= 0.0
    ensures WidthSum(rings) >= 0.0
    decreases |rings|
  {
    if rings != [] {
      WidthSumNonNegative(rings[1..]);
    }
  }

  /** The two background nodes every face with settings gets. */
  function Backgrounds(setting: ClockSetting, env: Environment): (r: (FaceBackground.BackgroundNode, FaceBackground.BackgroundNode))
    ensures r.0.children == [FaceBackground.Plain(FaceBackground.FilledShapeNode(setting.clockCasingMaterialName, env.screen))]
    ensures |r.1.children| == (if setting.faceBackgroundType == FaceBackground.FaceBackgroundTypeNone then 0 else 1)
    // the face background draws the configured type with the face material
    ensures var t, m := setting.faceBackgroundType, setting.clockFaceMaterialName;
      var xb, yb := FaceBackground.XBounds(env.screen), FaceBackground.YBounds(env.screen);
      && (t == FaceBackground.FaceBackgroundTypeFilled ==>
            r.1.children == [FaceBackground.Plain(FaceBackground.FilledShapeNode(m, env.screen))])
      && (t == FaceBackground.FaceBackgroundTypeDiagonalSplit ==>
            && r.1.children[0].Plain? && r.1.children[0].node.paint == FaceBackground.MaterialPaint(m)
            && FaceBackground.ChildShape(r.1.children[0]) == FaceBackground.Polygon(FaceBackground.DiagonalSplitVertices(xb, yb)))
      && (t == FaceBackground.FaceBackgroundTypeVerticalSplit ==>
            FaceBackground.ChildShape(r.1.children[0]) == FaceBackground.Polygon(FaceBackground.VerticalSplitVertices(xb, yb)))
      && (t == FaceBackground.FaceBackgroundTypeHorizontalSplit ==>
            FaceBackground.ChildShape(r.1.children[0]) == FaceBackground.Polygon(FaceBackground.HorizontalSplitVertices(xb, yb)))
      && (t == FaceBackground.FaceBackgroundTypeCircle ==>
            FaceBackground.ChildShape(r.1.children[0]) == FaceBackground.CircleShape(FaceBackground.CircleRadius * env.sizeMultiplier))
      && (t in {FaceBackground.FaceBackgroundTypeVerticalSplit, FaceBackground.FaceBackgroundTypeHorizontalSplit,
                FaceBackground.FaceBackgroundTypeCircle} ==>
            && (r.1.children[0].Plain? <==> env.materialIsColor(m))
            && (r.1.children[0].Plain? ==> r.1.children[0].node.paint == FaceBackground.ColorFill(m)))
      && (forall c :: c in r.1.children && c.Cropped? ==> c.content == FaceBackground.FilledShapeNode(m, env.screen))
      && (forall c :: c in r.1.children && c.Plain? && t != FaceBackground.FaceBackgroundTypeFilled ==>
            c.node.strokeColor == Some(FaceBackground.Clear) && c.node.lineWidth == Some(1.0))
  {
    var casing := FaceBackground.BuildBackground(
      FaceBackground.FaceBackgroundTypeFilled, setting.clockCasingMaterialName, FaceBackground.Clear, 1.0,
      env.screen, env.materialIsColor(setting.clockCasingMaterialName), env.sizeMultiplier);
    var shape := FaceBackground.BuildBackground(
      setting.faceBackgroundType, setting.clockFaceMaterialName, FaceBackground.Clear, 1.0,
      env.screen, env.materialIsColor(setting.clockFaceMaterialName), env.sizeMultiplier);
    (casing, shape)
  }

  /** The face before any settings are read: step movements and no children. */
  const EmptyFace: Face :=
    Face(HandSet(SecondHandMovementStep, MinuteHandMovementStep, false), None, None, [])

  /**
   * Assembles a face. Without face settings nothing is added and the hands keep their
   * default step movements; otherwise the face gets both backgrounds, its hands with the
   * configured movements, and its rings starting at distance 1.
   */
  function BuildFace(setting: ClockSetting, env: Environment): (r: Rendered<Face>)
    ensures setting.clockFaceSettings.None? ==> r == Done(EmptyFace)
    ensures setting.clockFaceSettings.Some? ==>
      (r.Done? <==> RenderRings(setting.clockFaceSettings.value.ringMaterials,
                                setting.clockFaceSettings.value.ringSettings, 1.0, env.pointAt).Done?)
    ensures setting.clockFaceSettings.Some? && r.Done? ==>
      var fs := setting.clockFaceSettings.value;
      && r.value.hands == HandSet(fs.secondHandMovement, fs.minuteHandMovement, true)
      && r.value.casing == Some(Backgrounds(setting, env).0)
      && r.value.backgroundShape == Some(Backgrounds(setting, env).1)
      && r.value.rings == RenderRings(fs.ringMaterials, fs.ringSettings, 1.0, env.pointAt).value
      && |r.value.rings| == |fs.ringSettings|
  {
    match setting.clockFaceSettings
    case None => Done(EmptyFace)
    case Some(fs) =>
      var (casing, shape) := Backgrounds(setting, env);
      var hands := HandSet(fs.secondHandMovement, fs.minuteHandMovement, true);
      match RenderRings(fs.ringMaterials, fs.ringSettings, 1.0, env.pointAt)
      case Trapped(trap) => Trapped(trap)
      case Done(rings) => Done(Face(hands, Some(casing), Some(shape), rings))
  }

  /**
   * On an assembled face, ring `k` sits at distance 1 less the widths of the rings
   * before it, is painted with its theme material (clamped to the last one), and
   * rings never move outwards while widths are non-negative.
   */
  lemma FaceRingLayout(setting: ClockSetting, env: Environment, k: nat)
    requires setting.clockFaceSettings.Some? && BuildFace(setting, env).Done?
    requires k < |setting.clockFaceSettings.value.ringSettings|
    ensures var fs := setting.clockFaceSettings.value;
      var ring := BuildFace(setting, env).value.rings[k];
      var index := fs.ringSettings[k].materialIndex;
      && ring.distance == 1.0 - WidthSum(fs.ringSettings[..k])
      && GenerateRing(fs.ringSettings[k], ring.fill, fs.ringMaterials, ring.distance, true, env.pointAt) == Done(ring)
      && 0 <= index
      && ring.fill == fs.ringMaterials[if index < |fs.ringMaterials| then index else |fs.ringMaterials| - 1]
      && ((forall j :: 0 <= j < |fs.ringSettings| ==> fs.ringSettings[j].ringWidth >= 0.0) ==>
            forall j :: 0 <= j <= k ==> ring.distance <= BuildFace(setting, env).value.rings[j].distance)
  {
    var fs := setting.clockFaceSettings.value;
    RingDistances(fs.ringMaterials, fs.ringSettings, 1.0, env.pointAt, k);
    if forall j :: 0 <= j < |fs.ringSettings| ==> fs.ringSettings[j].ringWidth >= 0.0 {
      forall j | 0 <= j <= k
        ensures BuildFace(setting, env).value.rings[k].distance <= BuildFace(setting, env).value.rings[j].distance
      {
        RingDistancesNonIncreasing(fs.ringMaterials, fs.ringSettings, 1.0, env.pointAt, j, k);
      }
    }
  }
}
